=== FILE: README.md ===
# Message-archive synchronisation of xabber-android, modelled in Dafny

This project models how the xabber Android client keeps one chat's local
history in step with the server's message archive (XEP-0313, "Message
Archive Management", with result-set paging from XEP-0059). The logic lives
in `MamManager`:

- **Deduplication filter.** Before a batch of archived records is stored,
  it drops each record that the chat's stored records already represent.
  That means the same stanza id and text, or the same text with a time
  stamp within 5000 ms on either side.
- **Sync cursor.** Each chat has a `SyncInfo` cursor that is created on
  first lookup. It holds the oldest and newest archive ids seen and a flag
  saying the remote history is completely loaded. It has one update for a
  page towards the present and another for a page into the past.
- **Forward catch-up.** After a 5-minute throttle and the account gates, it
  queries page after page. Each round reads the pivot afresh from the
  cursor. It goes on only while the pivot was known and the page was full.
  A first run that got a partial page marks the history complete.
- **Backward backfill.** Each call fetches one page before the oldest known
  id, unless the history is known complete or no oldest id is known.
- **Archive entry mapper.** Turns archived stanzas into records, or
  discards the whole page when an entry is an undecodable or non-plaintext
  OTR message.
- **Support cache.** A per-account cache of whether the server supports
  the archive.

Files, one module each:

| file | module | contents |
|---|---|---|
| `types.dfy` | `MamTypes` | records, cursors, stanzas, pages, replies, queries, chats, the store, constants |
| `dedup.dfy` | `Dedup` | the filter as the code writes it, a reference definition of "duplicate", the merge |
| `sync_cursor.dfy` | `SyncCursor` | get-or-create, the forward and backward cursor updates, the completion mark |
| `archive_mapper.dfy` | `ArchiveMapper` | the entry mapper and the field relation each record has to its entry |
| `support_cache.dfy` | `SupportCache` | lookup-or-probe, cache-on-answer, drop-on-authorisation |
| `forward_sync.dfy` | `ForwardSync` | throttle, one forward page, the catch-up loop, the gated entry point |
| `backward_sync.dfy` | `BackwardSync` | one backward call with its gates and outcomes |

The environment enters as parameters:
- **Store.** A sequence of records plus a map from conversation to cursor.
- **Server.** A reply (a page, or a failed query) for each query. The
  forward loop takes the sequence of replies the archive gives to its
  successive queries. When that sequence runs out before the loop stops,
  the run ends as `OutOfFuel`.
- **Clock.** The current time is a single parameter `now`.
- **Other inputs.** Whether the account is online and authenticated is a
  parameter, and so is the outcome of the server's capability probe.
- **Page size.** MamManager's `PAGE_SIZE` is the parameter `pageSize`.

## Model

| member | source | states |
|---|---|---|
| Dedup.LocalMessages | xabber/src/main/java/com/xabber/android/data/extension/mam/MamManager.java:242-245 | the snapshot holds exactly the stored records of the chat's conversation |
| Dedup.SameText | xabber/src/main/java/com/xabber/android/data/extension/mam/MamManager.java:268-269 | the same-text selection holds exactly the snapshot records whose text equals the remote text, null matching null |
| Dedup.IsTimeStampSimilar | xabber/src/main/java/com/xabber/android/data/extension/mam/MamManager.java:298-316 | the two inclusive range queries (stored time stamp, stored delay stamp) hold exactly when one same-text record has one of its stored times within 5000 ms of the given time; a record exactly 5000 ms away on either side counts |
| Dedup.IsRedundant | xabber/src/main/java/com/xabber/android/data/extension/mam/MamManager.java:252-290 | the filter's three checks in MamManager's order (stanza id and text; same text with a stored time stamp or delay stamp near the remote time stamp; the same for the remote delay stamp when present) drop a record exactly when some stored record represents it (the reference definition `Duplicate`) |
| Dedup.KeepNew | xabber/src/main/java/com/xabber/android/data/extension/mam/MamManager.java:247-291 | the surviving records are an order-preserving subsequence of the batch; every copy of a record that is not a duplicate of the snapshot survives, and no copy of a duplicate does (stated per record with multiplicity) |
| Dedup.KeepEverything | xabber/src/main/java/com/xabber/android/data/extension/mam/MamManager.java:247-291 | a batch none of whose records is a duplicate of the snapshot is kept whole and in order |
| Dedup.SyncMessages | xabber/src/main/java/com/xabber/android/data/extension/mam/MamManager.java:234-296 | a null or empty batch writes nothing; otherwise the store only gains records, and what it gains is the batch in batch order with exactly the duplicates of the snapshot removed, every copy of a kept record included |
| Dedup.SyncMessagesIdempotent | xabber/src/main/java/com/xabber/android/data/extension/mam/MamManager.java:236-295 | merging the same batch a second time adds nothing, since each of its records is now within 0 ms of its own stored copy |
| Dedup.SameBatchNotDeduplicated | xabber/src/main/java/com/xabber/android/data/extension/mam/MamManager.java:242-295 | two batch records that would represent each other are both kept when nothing stored represents either: the batch is checked only against the snapshot taken before the merge, never against itself |
| Dedup.DedupWindow | xabber/src/main/java/com/xabber/android/data/extension/mam/MamManager.java:298-316 | with equal texts, different stanza ids and no delay stamps, a record is dropped exactly when the time stamps differ by at most 5000 ms: the window is inclusive at both ends |
| SyncCursor.GetSyncInfo | xabber/src/main/java/com/xabber/android/data/extension/mam/MamManager.java:319-332 | get-or-create: returns the stored cursor, or a fresh empty one that is then stored; no other cursor changes |
| SyncCursor.GetSyncInfoIdempotent | xabber/src/main/java/com/xabber/android/data/extension/mam/MamManager.java:319-332 | a second lookup returns the same cursor and creates nothing |
| SyncCursor.UpdateLastHistorySyncInfo | xabber/src/main/java/com/xabber/android/data/extension/mam/MamManager.java:334-354 | no result set changes nothing; the oldest ids are set only while unknown, the oldest stanza id only from a non-empty page; the newest id moves only to a non-null result-set last id; the completion flag is untouched |
| SyncCursor.UpdateLastIdempotent | xabber/src/main/java/com/xabber/android/data/extension/mam/MamManager.java:334-354 | applying the same forward page twice equals applying it once |
| SyncCursor.UpdatePreviousHistorySyncInfo | xabber/src/main/java/com/xabber/android/data/extension/mam/MamManager.java:419-432 | completion becomes true for a short page and never becomes false; the oldest id is overwritten with the result-set first id; the oldest stanza id changes only for a non-empty page; the newest id is unchanged |
| SyncCursor.UpdatePreviousIdempotent | xabber/src/main/java/com/xabber/android/data/extension/mam/MamManager.java:419-432 | applying the same backward page twice equals applying it once |
| SyncCursor.SetRemoteHistoryCompletelyLoaded | xabber/src/main/java/com/xabber/android/data/extension/mam/MamManager.java:194-203 | the chat's cursor, created if needed, is the old cursor with completion set; every other cursor is kept |
| ArchiveMapper.MessageEntries | xabber/src/main/java/com/xabber/android/data/extension/mam/MamManager.java:437-440 | every copy of each message-stanza entry is kept, in page order, and no other entry is |
| ArchiveMapper.RecordOf | xabber/src/main/java/com/xabber/android/data/extension/mam/MamManager.java:461-477 | the record of a message entry carries the chat's account, user and resource, the decoded text, the outer delay as time stamp, the inner delay as delay stamp, the stanza id, incoming iff the bare sender is the chat's bare peer, and the archive, read and sent flags; these determine the record completely |
| ArchiveMapper.GetMessageItems | xabber/src/main/java/com/xabber/android/data/extension/mam/MamManager.java:434-484 | the page is discarded exactly when some message entry fails OTR decoding or is a non-plaintext OTR message; otherwise the i-th record comes from the i-th message entry with the chat's account, user and resource, the OTR plaintext or body, the outer delay as time stamp, the inner delay as delay stamp, the stanza id, incoming iff the bare sender is the chat's bare peer, and the archive, read and sent flags set |
| ArchiveMapper.MappedRecordsBelongToChat | xabber/src/main/java/com/xabber/android/data/extension/mam/MamManager.java:465-466 | every mapped record belongs to the chat's conversation |
| SupportCache.UpdateIsSupported | xabber/src/main/java/com/xabber/android/data/extension/mam/MamManager.java:111-135 | a failed probe answers "unsupported" and leaves the cache alone; an answer is cached for the account and returned; other accounts are untouched |
| SupportCache.CheckSupport | xabber/src/main/java/com/xabber/android/data/extension/mam/MamManager.java:101-109 | a cached verdict is returned without probing; otherwise the probe decides; a positive verdict is always cached afterwards |
| SupportCache.OnAuthorized | xabber/src/main/java/com/xabber/android/data/extension/mam/MamManager.java:67-82 | the account's cached verdict is dropped and re-probed: it ends up absent after a failed probe, the new answer otherwise; other accounts are untouched |
| SupportCache.CachedVerdictIsStable | xabber/src/main/java/com/xabber/android/data/extension/mam/MamManager.java:101-109 | once a verdict is cached, already or by the first check's answer, later checks return it whatever the server would say, and leave the cache unchanged |
| ForwardSync.ToMinutes | xabber/src/main/java/com/xabber/android/data/extension/mam/MamManager.java:142-143 | the minute count truncates towards zero, with bounds stated by multiplication |
| ForwardSync.ThrottledExactly | xabber/src/main/java/com/xabber/android/data/extension/mam/MamManager.java:142-145 | the throttle skips exactly when the chat has a sync time and less than 300000 ms have passed since it |
| ForwardSync.QueryFor | xabber/src/main/java/com/xabber/android/data/extension/mam/MamManager.java:209-213 | no pivot asks for the newest page; a pivot asks for the page after it |
| ForwardSync.RequestLastHistoryPage | xabber/src/main/java/com/xabber/android/data/extension/mam/MamManager.java:205-232 | a failed query counts -1 and changes nothing; an answered page counts its entries, stamps the sync time, moves the cursor by the forward update and merges the mapped records; other cursors are kept and records are only appended |
| ForwardSync.DiscardedPageStillMovesCursor | xabber/src/main/java/com/xabber/android/data/extension/mam/MamManager.java:227-228 | a page the mapper discards adds no record but still moves the pivot |
| ForwardSync.ForwardPageIdempotent | xabber/src/main/java/com/xabber/android/data/extension/mam/MamManager.java:205-232 | applying the same answered page twice leaves store and chat as applying it once |
| ForwardSync.NoLastKeepsPivot | xabber/src/main/java/com/xabber/android/data/extension/mam/MamManager.java:169-180 | while no reply reports a last id (a failed query, or a page without a result set or without a last id), the stored pivot stays where it was, so each round re-issues the first round's query |
| ForwardSync.PivotAfterIsCursorAfter | xabber/src/main/java/com/xabber/android/data/extension/mam/MamManager.java:339-351 | the pivot each round reads is the newest archive id of the cursor the forward updates of the earlier answered pages leave |
| ForwardSync.PivotAfterKeepsSome | xabber/src/main/java/com/xabber/android/data/extension/mam/MamManager.java:339-351 | once the pivot is known, no later page makes it unknown again |
| ForwardSync.ForwardRound | xabber/src/main/java/com/xabber/android/data/extension/mam/MamManager.java:171-176 | one round reads the stored pivot and applies the reply to the query built from it: a failed query writes nothing; an answered page merges its mapped records and moves the cursor by the forward update; the round reports the pivot and count the loop test uses, only this conversation's cursor changes and records are only appended |
| ForwardSync.FollowRound | xabber/src/main/java/com/xabber/android/data/extension/mam/MamManager.java:169-180 | one more round extends the run: the store is what the earlier rounds and this one leave, in order |
| ForwardSync.ForwardRounds | xabber/src/main/java/com/xabber/android/data/extension/mam/MamManager.java:169-180 | the do-while: each query uses the pivot stored when it is issued; every round but the last got a full page; a first run stops after one round; the records are those the answered pages merged, in order, and the cursor (its oldest ids included) is the forward updates of those pages, in order; completion is untouched |
| ForwardSync.RequestLastHistoryLoop | xabber/src/main/java/com/xabber/android/data/extension/mam/MamManager.java:169-187 | each query uses the freshly stored pivot; with a known pivot every query asks for the page after it; a first run issues exactly one query; every round but the last got a full page, and the last one did not (or the pivot was unknown); completion ends up set exactly when it was set before or a first run got a partial page; the records are those the answered pages merged, in order, and apart from completion the cursor is the forward updates of those pages, in order; with a known pivot and only full pages the loop never stops of itself |
| ForwardSync.RequestLastHistory | xabber/src/main/java/com/xabber/android/data/extension/mam/MamManager.java:137-192 | the gates run in MamManager's order (throttle, online, authenticated, supported); a skipped run issues no query and changes nothing but the support cache; a run that proceeds issues the loop's queries (each for the pivot stored when it is issued), continues only after full pages, stops after one round on a first run or after a partial page, sets completion exactly as the loop does, and leaves the records and cursor the answered pages give, in order; completion is never reset and records are only appended |
| BackwardSync.RequestPreviousHistory | xabber/src/main/java/com/xabber/android/data/extension/mam/MamManager.java:356-417 | a query is made exactly when the chat flag is clear, the account is online, the archive is supported and the cursor has an oldest id and is not complete; it asks for the page before that id; the chat flag ends up set exactly when it already was, or the call passes the gates and the cursor is complete; a failed query or a page without a result set writes nothing; a page with one merges its records and then applies the backward update |
| BackwardSync.CompleteStaysQuiet | xabber/src/main/java/com/xabber/android/data/extension/mam/MamManager.java:375-389 | once the history is known complete, a backward call issues no query, keeps completion, adds no record, and sets the chat flag when it gets past the gates |
| BackwardSync.BackwardKeepsForwardState | xabber/src/main/java/com/xabber/android/data/extension/mam/MamManager.java:419-432 | a backward call never clears completion and never moves the newest archive id |
| BackwardSync.DiscardedBackwardPageStillMovesCursor | xabber/src/main/java/com/xabber/android/data/extension/mam/MamManager.java:408-411 | a backward page the mapper discards adds no record, yet moves the oldest id and completes the history when it is short |
| BackwardSync.EmptyBackwardPageLetsForwardReseed | xabber/src/main/java/com/xabber/android/data/extension/mam/MamManager.java:419-432 | an empty backward page whose result set has no first id clears the oldest archive id and completes the history; the next forward page then re-seeds the oldest archive and stanza ids from that forward page's result set (lines 341-345) |

## Left out

- Persistence and transactions: the store is an immutable value, and each read-modify-write is one function application.
- Server queries, capability discovery and archiving preferences (lines 112-124): a query has a reply parameter (a page, or a failure), and the capability probe with its preference calls is one probe result.
- OTR decoding and JID parsing are foreign library calls. Decoding is an abstract result with four cases. Bare-address equality is equality of the `bare` field.
- `FileManager.processFileMessage` (line 479) is treated as the identity on a record.
- Event posts, logging, and running on a background or UI thread are left out; they do not change the modelled state.
- The roster fan-out in `onRosterReceived` (lines 86-99) is left out; it only calls the forward entry point for every contact.
- A null chat (lines 138 and 357) is left out: a chat is always a value here.
- The `instanceof AccountItem` test in `onAuthorized` (line 69) is left out, since only accounts reach the model.
- The clock is one parameter `now`. MamManager reads it once for the throttle and again for each page's sync stamp, so the model gives every stamp the same time.
- ForwardSync.RequestLastHistoryLoop: MamManager loops for as long as the server keeps returning full pages, so the model bounds the loop by the replies it is given and reports `OutOfFuel` when they run out. Its contract shows that with a known pivot and only full pages the loop never stops of itself.
- Termination or convergence of the catch-up against a finite archive is not stated, because that needs a model of the server's archive; the loop contracts hold for every sequence of replies.
- Time stamps are unbounded integers: Java `long` overflow in `t ± 5000` and in the elapsed-time subtraction is not modelled.
- MamManager dereferences a forwarded message's sender (line 461) and its forwarding delay (line 469) without a null check, so an entry lacking either would throw. Entries here always carry a sender and an outer delay.
- BackwardSync.RequestPreviousHistory: MamManager's missing-result-set case (line 406) throws before anything is written. It is modelled as the `MissingRsm` outcome with nothing written, not as an exception.
- SyncCursor.UpdatePreviousHistorySyncInfo: the oldest archive id is not promised to be set once and then move only into the past, because MamManager does not keep that: an empty backward page without a first id clears it (line 427), and the next forward page re-seeds it from that forward page's result set (lines 341-345), as BackwardSync.EmptyBackwardPageLetsForwardReseed shows. Monotonicity itself cannot be stated here, since archive ids are opaque strings with no order.
- The forward and backward paths run unsynchronised on background threads and can race on one cursor. Concurrency is not modelled: each call is atomic here.
- A decode failure leaves the page's records out but still advances the cursor (lines 227-228 and 409-411). The model follows this code behaviour, not a reading in which the cursor stays put.

=== FILE: archive_mapper.dfy ===
/** Conversion of one archive page into message records of a chat. */
module ArchiveMapper {
  import opened MamTypes

  /** A message entry whose body the decoder rejects, or decodes to a
      non-plaintext envelope: one such entry discards the whole page. */
  predicate Poisoned(e: Entry)
  {
    e.stanza.MessageStanza? && (e.stanza.otr.OtrDecodeError? || e.stanza.otr.OtrControl?)
  }

  /** The text a record gets: the clean text of a plaintext envelope, or the
      body as it is when there is no envelope. */
  function PlainBody(m: Stanza): Option<string>
    requires m.MessageStanza?
  {
    match m.otr
    case OtrPlaintext(clean) => clean
    case _ => m.body
  }

  /** The entries that carry message stanzas, in page order: the entries
      the mapper turns into records. */
  function MessageEntries(entries: seq<Entry>): (r: seq<Entry>)
    ensures forall e {:trigger e in r} {:trigger e in entries} :: e in r <==> e in entries && e.stanza.MessageStanza?
    // Every copy of a message entry is kept, in page order, and nothing else.
    ensures forall e {:trigger multiset(r)[e]} {:trigger multiset(entries)[e]} ::
              multiset(r)[e] == if e.stanza.MessageStanza? then multiset(entries)[e] else 0
    ensures IsSubsequence(r, entries)
    ensures |r| <= |entries|
  {
    if |entries| == 0 then []
    else
      var rest := MessageEntries(entries[1..]);
      assert entries == [entries[0]] + entries[1..];
      assert multiset(entries) == multiset{entries[0]} + multiset(entries[1..]);
      if entries[0].stanza.MessageStanza? then
        assert ([entries[0]] + rest)[1..] == rest;
        [entries[0]] + rest
      else
        SubsequenceSkip(rest, entries);
        rest
  }

  /** The record one message entry becomes in conversation `conv`: every
      field is set from the entry or the chat, none is left at a default. */
  function RecordOf(e: Entry, conv: Conversation): (r: Record)
    requires e.stanza.MessageStanza?
    ensures Yields(r, e, conv)
    ensures forall rec :: Yields(rec, e, conv) ==> rec == r
  {
    var m := e.stanza;
    Record(
      conv := conv,
      resource := conv.user.resource,
      text := PlainBody(m),
      timestamp := e.outerDelay,
      delayTimestamp := m.innerDelay,
      incoming := m.from.bare == conv.user.bare,
      stanzaId := m.stanzaId,
      fromArchive := true,
      read := true,
      sent := true)
  }

  /** `rec` is the record message entry `e` yields in conversation `conv`:
      it belongs to the chat and carries the peer's resource, the decoded
      text, the envelope time as time stamp, the message's own delay as
      delay time stamp, the stanza id, the direction from comparing bare
      addresses, and the archive, read and sent flags set. */
  predicate Yields(rec: Record, e: Entry, conv: Conversation)
    requires e.stanza.MessageStanza?
  {
    && rec.conv == conv
    && rec.resource == conv.user.resource
    && rec.text == PlainBody(e.stanza)
    && rec.timestamp == e.outerDelay
    && rec.delayTimestamp == e.stanza.innerDelay
    && rec.stanzaId == e.stanza.stanzaId
    && (rec.incoming <==> e.stanza.from.bare == conv.user.bare)
    && rec.fromArchive && rec.read && rec.sent
  }

  /** Some entry of the page is poisoned. */
  predicate AnyPoisoned(entries: seq<Entry>)
  {
    exists k :: 0 <= k < |entries| && Poisoned(entries[k])
  }

  /** `recs` are the records of `msgs`, one for one, in order. */
  predicate AllYield(recs: seq<Record>, msgs: seq<Entry>, conv: Conversation)
  {
    && |recs| == |msgs|
    && forall j :: 0 <= j < |recs| ==> msgs[j].stanza.MessageStanza? && Yields(recs[j], msgs[j], conv)
  }

  /** The records of a page for conversation `conv`, or `None` when the
      whole page is discarded. Non-message stanzas are skipped; every
      message entry yields one record, in page order. */
  function GetMessageItems(entries: seq<Entry>, conv: Conversation): (r: Option<seq<Record>>)
    ensures r.None? <==> AnyPoisoned(entries)
    ensures r.Some? ==> AllYield(r.value, MessageEntries(entries), conv)
  {
    if |entries| == 0 then Some([])
    else
      var head := entries[0];
      var tail := GetMessageItems(entries[1..], conv);
      PoisonedSplit(entries);
      if !head.stanza.MessageStanza? then
        assert MessageEntries(entries) == MessageEntries(entries[1..]);
        tail
      else if Poisoned(head) then
        None
      else
        match tail
        case None => None
        case Some(rest) =>
          AllYieldCons(RecordOf(head, conv), rest, head, MessageEntries(entries[1..]), conv);
          assert MessageEntries(entries) == [head] + MessageEntries(entries[1..]);
          Some([RecordOf(head, conv)] + rest)
  }

  /** Pairing one more record with one more message entry. */
  lemma AllYieldCons(rec: Record, recs: seq<Record>, e: Entry, msgs: seq<Entry>, conv: Conversation)
    requires e.stanza.MessageStanza? && Yields(rec, e, conv)
    requires AllYield(recs, msgs, conv)
    ensures AllYield([rec] + recs, [e] + msgs, conv)
  {
    var out := [rec] + recs;
    var ins := [e] + msgs;
    forall j | 0 <= j < |out|
      ensures ins[j].stanza.MessageStanza? && Yields(out[j], ins[j], conv)
    {
      if j > 0 {
        assert out[j] == recs[j - 1] && ins[j] == msgs[j - 1];
      }
    }
  }

  /** A page holds a poisoned entry exactly when its head is poisoned or
      its tail holds one. */
  lemma PoisonedSplit(entries: seq<Entry>)
    requires |entries| > 0
    ensures AnyPoisoned(entries) <==> Poisoned(entries[0]) || AnyPoisoned(entries[1..])
  {
    if AnyPoisoned(entries) {
      var k :| 0 <= k < |entries| && Poisoned(entries[k]);
      if k > 0 {
        assert entries[1..][k - 1] == entries[k];
      }
    }
    if AnyPoisoned(entries[1..]) {
      var k :| 0 <= k < |entries[1..]| && Poisoned(entries[1..][k]);
      assert entries[k + 1] == entries[1..][k];
    }
  }

  /** Every record the mapper yields belongs to the chat's conversation,
      which is what lets a second merge of the same page find them. */
  lemma MappedRecordsBelongToChat(entries: seq<Entry>, conv: Conversation)
    requires GetMessageItems(entries, conv).Some?
    ensures forall x :: x in GetMessageItems(entries, conv).value ==> x.conv == conv
  {
    var rs := GetMessageItems(entries, conv).value;
    forall x | x in rs ensures x.conv == conv {
      var j :| 0 <= j < |rs| && rs[j] == x;
    }
  }
}

=== FILE: backward_sync.dfy ===
/** Backward ("history backfill") synchronisation of one chat: at most one
    page into the past per call. */
module BackwardSync {
  import opened MamTypes
  import opened SyncCursor
  import opened Dedup
  import opened ArchiveMapper
  import opened SupportCache
  import ForwardSync

  /** How a backward call ended. `MissingRsm` is a page without a result
      set: MamManager dereferences it for logging and the call dies there,
      before anything is merged. */
  datatype BackwardOutcome =
    | SkippedComplete | SkippedOffline | SkippedUnsupported | NothingToLoad
    | QueryError | MissingRsm | Loaded

  /** The state after a backward call and the query it issued, if any. */
  datatype BackwardResult = BackwardResult(store: Store, chat: Chat, cache: Cache, query: Option<Query>, outcome: BackwardOutcome)

  /** A backward call gets as far as reading the cursor: the chat does not
      yet know its history to be complete, the account is online and the
      archive is supported. */
  predicate PassesGates(chat: Chat, cache: Cache, online: bool, probe: Probe)
  {
    !chat.previousComplete && online && CheckSupport(cache, chat.conv.account, probe).supported
  }

  /** One backward call. The chat flag and the account gate come first,
      then the support check; the cursor is then read (and created if
      needed). A cursor known complete sets the chat flag. Without a
      known oldest id, or with the history complete, no query is made.
      Otherwise the page before the oldest id is requested; its records
      are merged and then the cursor is moved, even when the mapper
      discards the page. */
  function RequestPreviousHistory(st: Store, chat: Chat, cache: Cache, online: bool, probe: Probe,
                                  reply: Reply, pageSize: nat): (r: BackwardResult)
    // Gates that stop the call before the cursor is read.
    ensures chat.previousComplete ==> r == BackwardResult(st, chat, cache, None, SkippedComplete)
    ensures !chat.previousComplete && !online ==> r == BackwardResult(st, chat, cache, None, SkippedOffline)
    ensures online && !chat.previousComplete ==> r.cache == CheckSupport(cache, chat.conv.account, probe).cache
    // A query is made exactly when the gates pass and the cursor has an
    // oldest id and is not complete; it asks for the page before that id.
    ensures r.query.Some? <==>
              PassesGates(chat, cache, online, probe)
              && CursorOf(st.cursors, chat.conv).firstMamId.Some?
              && !CursorOf(st.cursors, chat.conv).remoteComplete
    ensures r.query.Some? ==> r.query.value == Before(CursorOf(st.cursors, chat.conv).firstMamId.value)
    // A cursor known complete tells the chat so.
    ensures PassesGates(chat, cache, online, probe) && CursorOf(st.cursors, chat.conv).remoteComplete ==>
              r.chat.previousComplete
    ensures r.chat.conv == chat.conv && r.chat.lastSyncedTime == chat.lastSyncedTime
    // The flag is set only past the gates, and only by a complete cursor.
    ensures r.chat.previousComplete <==>
              chat.previousComplete || (PassesGates(chat, cache, online, probe) && CursorOf(st.cursors, chat.conv).remoteComplete)
    // Nothing is written unless a page arrived with a result set.
    ensures !r.outcome.Loaded? ==> r.store.messages == st.messages
    ensures !r.outcome.Loaded? ==> CursorOf(r.store.cursors, chat.conv) == CursorOf(st.cursors, chat.conv)
    ensures r.outcome.Loaded? <==> r.query.Some? && reply.Answered? && reply.page.rsm.Some?
    ensures r.outcome.Loaded? ==>
              && r.store.messages == SyncMessages(st.messages, chat.conv, GetMessageItems(reply.page.entries, chat.conv))
              && CursorOf(r.store.cursors, chat.conv)
                 == UpdatePreviousHistorySyncInfo(CursorOf(st.cursors, chat.conv), reply.page, pageSize)
    // Only this conversation's cursor may change.
    ensures forall c :: c != chat.conv ==> (c in r.store.cursors <==> c in st.cursors)
    ensures forall c :: c != chat.conv && c in st.cursors ==> r.store.cursors[c] == st.cursors[c]
  {
    if chat.previousComplete then BackwardResult(st, chat, cache, None, SkippedComplete)
    else if !online then BackwardResult(st, chat, cache, None, SkippedOffline)
    else
      var checked := CheckSupport(cache, chat.conv.account, probe);
      if !checked.supported then BackwardResult(st, chat, checked.cache, None, SkippedUnsupported)
      else
        var (info, cursors) := GetSyncInfo(st.cursors, chat.conv);
        var looked := st.(cursors := cursors);
        var flagged := if info.remoteComplete then chat.(previousComplete := true) else chat;
        if info.firstMamId.None? || info.remoteComplete then
          BackwardResult(looked, flagged, checked.cache, None, NothingToLoad)
        else
          var query := Before(info.firstMamId.value);
          match reply
          case QueryFailed => BackwardResult(looked, flagged, checked.cache, Some(query), QueryError)
          case Answered(page) =>
            if page.rsm.None? then BackwardResult(looked, flagged, checked.cache, Some(query), MissingRsm)
            else
              var merged := SyncMessages(st.messages, chat.conv, GetMessageItems(page.entries, chat.conv));
              var moved := cursors[chat.conv := UpdatePreviousHistorySyncInfo(info, page, pageSize)];
              BackwardResult(Store(merged, moved), flagged, checked.cache, Some(query), Loaded)
  }

  /** Once the remote history is known complete, backward calls issue no
      query, keep it complete, and leave the store's records alone. */
  lemma CompleteStaysQuiet(st: Store, chat: Chat, cache: Cache, online: bool, probe: Probe, reply: Reply, pageSize: nat)
    requires CursorOf(st.cursors, chat.conv).remoteComplete
    ensures var r := RequestPreviousHistory(st, chat, cache, online, probe, reply, pageSize);
            && r.query.None?
            && CursorOf(r.store.cursors, chat.conv).remoteComplete
            && r.store.messages == st.messages
            && (PassesGates(chat, cache, online, probe) ==> r.chat.previousComplete)
  {
  }

  /** A backward page never resets completion and never moves the newest
      boundary, whatever the server answers. */
  lemma BackwardKeepsForwardState(st: Store, chat: Chat, cache: Cache, online: bool, probe: Probe, reply: Reply, pageSize: nat)
    ensures var r := RequestPreviousHistory(st, chat, cache, online, probe, reply, pageSize);
            && (CursorOf(st.cursors, chat.conv).remoteComplete ==> CursorOf(r.store.cursors, chat.conv).remoteComplete)
            && CursorOf(r.store.cursors, chat.conv).lastMamId == CursorOf(st.cursors, chat.conv).lastMamId
  {
  }

  /** A page the mapper discards still moves the oldest boundary, and a
      short one still completes the history; no record is added. */
  lemma DiscardedBackwardPageStillMovesCursor(st: Store, chat: Chat, cache: Cache, online: bool, probe: Probe,
                                              page: Page, pageSize: nat)
    requires PassesGates(chat, cache, online, probe)
    requires CursorOf(st.cursors, chat.conv).firstMamId.Some? && !CursorOf(st.cursors, chat.conv).remoteComplete
    requires page.rsm.Some? && GetMessageItems(page.entries, chat.conv).None?
    ensures var r := RequestPreviousHistory(st, chat, cache, online, probe, Answered(page), pageSize);
            && r.store.messages == st.messages
            && CursorOf(r.store.cursors, chat.conv).firstMamId == page.rsm.value.first
            && (CursorOf(r.store.cursors, chat.conv).remoteComplete <==> |page.entries| < pageSize)
  {
  }

  /** The oldest boundary is not kept monotone. An empty backward page whose
      result set reports no first id clears the oldest archive id (and, being
      short, completes the history); the next forward page then finds the
      oldest id unknown and re-seeds it, and the oldest stanza id, from that
      forward page's result set. */
  lemma EmptyBackwardPageLetsForwardReseed(st: Store, chat: Chat, cache: Cache, online: bool, probe: Probe,
                                           back: Page, fwd: Page, pageSize: nat, now: int)
    requires PassesGates(chat, cache, online, probe)
    requires CursorOf(st.cursors, chat.conv).firstMamId.Some? && !CursorOf(st.cursors, chat.conv).remoteComplete
    requires back.rsm.Some? && back.rsm.value.first.None? && |back.entries| == 0 && pageSize > 0
    requires fwd.rsm.Some? && |fwd.entries| > 0
    ensures var b := RequestPreviousHistory(st, chat, cache, online, probe, Answered(back), pageSize);
            var f := ForwardSync.RequestLastHistoryPage(b.store, b.chat, Answered(fwd), now);
            && b.outcome.Loaded?
            && CursorOf(b.store.cursors, chat.conv).firstMamId.None?
            && CursorOf(b.store.cursors, chat.conv).remoteComplete
            && CursorOf(f.store.cursors, chat.conv).firstMamId == fwd.rsm.value.first
            && CursorOf(f.store.cursors, chat.conv).firstStanzaId == FirstStanzaIdOf(fwd)
            && CursorOf(f.store.cursors, chat.conv).remoteComplete
  {
  }
}

=== FILE: dedup.dfy ===
/** Deduplication of archived records against the local store: the filter
    applied before a batch of archived records is inserted. */
module Dedup {
  import opened MamTypes

  /** The store's inclusive range query: `lo <= x <= hi`. */
  predicate Between(x: int, lo: int, hi: int)
  {
    lo <= x <= hi
  }

  /** The records of `stored` that belong to conversation `conv`: the
      snapshot every record of a batch is compared with. */
  function LocalMessages(stored: seq<Record>, conv: Conversation): (r: seq<Record>)
    ensures forall x {:trigger x in r} {:trigger x in stored} :: x in r <==> x in stored && x.conv == conv
    ensures |r| <= |stored|
  {
    if |stored| == 0 then []
    else (if stored[0].conv == conv then [stored[0]] else []) + LocalMessages(stored[1..], conv)
  }

  /** The records of `local` whose text equals `text` (null matches null). */
  function SameText(local: seq<Record>, text: Option<string>): (r: seq<Record>)
    ensures forall x {:trigger x in r} {:trigger x in local} :: x in r <==> x in local && x.text == text
  {
    if |local| == 0 then []
    else (if local[0].text == text then [local[0]] else []) + SameText(local[1..], text)
  }

  /** Whether some record of `sameText` has a time stamp, or a delay time
      stamp, inside the window of `t`: the two inclusive range queries. */
  predicate IsTimeStampSimilar(sameText: seq<Record>, t: int)
    // The two queries together ask whether one stored time of one record is near `t`.
    ensures IsTimeStampSimilar(sameText, t) <==> exists s :: s in sameText && StoredTimeNear(s, t)
    // Both ends of the window count.
    ensures forall s :: s in sameText && (s.timestamp == t - SimilarityWindowMs || s.timestamp == t + SimilarityWindowMs) ==>
              IsTimeStampSimilar(sameText, t)
  {
    var start := t - SimilarityWindowMs;
    var end := t + SimilarityWindowMs;
    (exists s :: s in sameText && Between(s.timestamp, start, end))
    || (exists s :: s in sameText && s.delayTimestamp.Some? && Between(s.delayTimestamp.value, start, end))
  }

  /** The three checks the filter makes on one archived record, in the
      order the filter makes them. They drop a record exactly when it is a
      duplicate in the sense of the reference definition below. */
  predicate IsRedundant(remote: Record, local: seq<Record>)
    ensures IsRedundant(remote, local) <==> Duplicate(remote, local)
  {
    if exists i :: 0 <= i < |local| && local[i].stanzaId == remote.stanzaId && local[i].text == remote.text then
      assert Duplicate(remote, local) by {
        var i :| 0 <= i < |local| && local[i].stanzaId == remote.stanzaId && local[i].text == remote.text;
        assert Represents(local[i], remote);
      }
      true
    else
      var sameText := SameText(local, remote.text);
      if IsTimeStampSimilar(sameText, remote.timestamp) then
        assert Duplicate(remote, local) by {
          var s :| s in sameText && StoredTimeNear(s, remote.timestamp);
          assert Represents(s, remote);
        }
        true
      else
        var byDelay := remote.delayTimestamp.Some? && IsTimeStampSimilar(sameText, remote.delayTimestamp.value);
        assert Duplicate(remote, local) <==> byDelay by {
          if Duplicate(remote, local) {
            // The representing record cannot match on stanza id, nor be near
            // the remote time stamp, so it is near the delay time stamp.
            var s :| s in local && Represents(s, remote);
            var i :| 0 <= i < |local| && local[i] == s;
            assert s in sameText;
          }
          if byDelay {
            var s :| s in sameText && StoredTimeNear(s, remote.delayTimestamp.value);
            assert Represents(s, remote);
          }
        }
        byDelay
  }

  /** `a` lies within the window around `t`, inclusive at both ends. */
  predicate Near(a: int, t: int)
  {
    Between(a, t - SimilarityWindowMs, t + SimilarityWindowMs)
  }

  /** One stored time of `s` (its time stamp or its delay time stamp) is
      near `t`. */
  predicate StoredTimeNear(s: Record, t: int)
  {
    Near(s.timestamp, t) || (s.delayTimestamp.Some? && Near(s.delayTimestamp.value, t))
  }

  /** `s` already represents `remote`: same stanza id and text, or same text
      and a stored time near the remote time stamp or near the remote delay
      time stamp. */
  predicate Represents(s: Record, remote: Record)
  {
    || (s.stanzaId == remote.stanzaId && s.text == remote.text)
    || (s.text == remote.text && StoredTimeNear(s, remote.timestamp))
    || (s.text == remote.text && remote.delayTimestamp.Some? && StoredTimeNear(s, remote.delayTimestamp.value))
  }

  /** Reference definition of a duplicate: some record of the snapshot
      represents it. */
  predicate Duplicate(remote: Record, local: seq<Record>)
  {
    exists s :: s in local && Represents(s, remote)
  }

  /** The records of `batch` that survive the filter, in batch order. Every
      record is checked against the same snapshot `local`: records of the
      batch are never compared with each other. */
  function KeepNew(batch: seq<Record>, local: seq<Record>): (kept: seq<Record>)
    ensures IsSubsequence(kept, batch)
    ensures forall x {:trigger x in kept} {:trigger x in batch} :: x in kept <==> x in batch && !Duplicate(x, local)
    // Each copy is judged on its own: equal records of one batch survive or go together.
    ensures forall x {:trigger multiset(kept)[x]} {:trigger multiset(batch)[x]} ::
              multiset(kept)[x] == if Duplicate(x, local) then 0 else multiset(batch)[x]
    ensures |kept| <= |batch|
  {
    if |batch| == 0 then []
    else
      var rest := KeepNew(batch[1..], local);
      assert batch == [batch[0]] + batch[1..];
      assert multiset(batch) == multiset{batch[0]} + multiset(batch[1..]);
      if IsRedundant(batch[0], local) then
        SubsequenceSkip(rest, batch);
        rest
      else
        assert ([batch[0]] + rest)[1..] == rest;
        [batch[0]] + rest
  }

  /** The store after a batch of mapped archive records has been merged
      into conversation `conv`: nothing happens for a discarded (null) or
      empty batch; otherwise the records that no stored record of `conv`
      represents are appended, in batch order. */
  function SyncMessages(stored: seq<Record>, conv: Conversation, batch: Option<seq<Record>>): (r: seq<Record>)
    ensures batch.None? || |batch.value| == 0 ==> r == stored
    ensures |r| >= |stored| && r[..|stored|] == stored
    ensures batch.Some? ==> IsSubsequence(r[|stored|..], batch.value)
    ensures batch.Some? ==> forall x {:trigger x in r[|stored|..]} {:trigger x in batch.value} :: x in r[|stored|..] <==>
                                          x in batch.value && !Duplicate(x, LocalMessages(stored, conv))
    ensures batch.Some? ==> forall x {:trigger multiset(r[|stored|..])[x]} {:trigger multiset(batch.value)[x]} ::
                                          multiset(r[|stored|..])[x] ==
                                          if Duplicate(x, LocalMessages(stored, conv)) then 0 else multiset(batch.value)[x]
  {
    match batch
    case None => stored
    case Some(records) =>
      if |records| == 0 then
        assert stored[|stored|..] == [];
        stored
      else
        var added := KeepNew(records, LocalMessages(stored, conv));
        assert (stored + added)[|stored|..] == added;
        stored + added
  }

  /** A record stays a duplicate when the snapshot only grows. */
  lemma DuplicateMonotone(remote: Record, local: seq<Record>, larger: seq<Record>)
    requires forall x :: x in local ==> x in larger
    requires Duplicate(remote, local)
    ensures Duplicate(remote, larger)
  {
  }

  /** The snapshot of a conversation only grows when records are appended
      to the store. */
  lemma LocalGrows(stored: seq<Record>, longer: seq<Record>, conv: Conversation)
    requires |longer| >= |stored| && longer[..|stored|] == stored
    ensures forall x :: x in LocalMessages(stored, conv) ==> x in LocalMessages(longer, conv)
  {
    forall x | x in LocalMessages(stored, conv) ensures x in LocalMessages(longer, conv) {
      assert x in longer[..|stored|];
    }
  }

  /** A batch whose every record is a duplicate keeps nothing. */
  lemma {:induction false} KeepNothing(batch: seq<Record>, local: seq<Record>)
    requires forall x :: x in batch ==> Duplicate(x, local)
    ensures KeepNew(batch, local) == []
  {
    if |batch| > 0 {
      assert batch[0] in batch;
      assert forall x :: x in batch[1..] ==> x in batch;
      KeepNothing(batch[1..], local);
    }
  }

  /** A batch none of whose records is a duplicate is kept whole, in order. */
  lemma {:induction false} KeepEverything(batch: seq<Record>, local: seq<Record>)
    requires forall x :: x in batch ==> !Duplicate(x, local)
    ensures KeepNew(batch, local) == batch
  {
    if |batch| > 0 {
      assert batch[0] in batch;
      assert forall x :: x in batch[1..] ==> x in batch;
      KeepEverything(batch[1..], local);
      assert !IsRedundant(batch[0], local);
      assert KeepNew(batch, local) == [batch[0]] + KeepNew(batch[1..], local);
    }
  }

  /** Merging the same batch a second time adds nothing: every record of
      the batch is either represented by the old snapshot, which the new
      one contains, or was appended and then represents itself. */
  lemma SyncMessagesIdempotent(stored: seq<Record>, conv: Conversation, batch: Option<seq<Record>>)
    requires batch.Some? ==> forall x :: x in batch.value ==> x.conv == conv
    ensures SyncMessages(SyncMessages(stored, conv, batch), conv, batch) == SyncMessages(stored, conv, batch)
  {
    if batch.Some? && |batch.value| > 0 {
      var once := SyncMessages(stored, conv, batch);
      var before := LocalMessages(stored, conv);
      var after := LocalMessages(once, conv);
      LocalGrows(stored, once, conv);
      forall x | x in batch.value
        ensures Duplicate(x, after)
      {
        if Duplicate(x, before) {
          DuplicateMonotone(x, before, after);
        } else {
          assert x in once[|stored|..];
          assert Represents(x, x);
        }
      }
      KeepNothing(batch.value, after);
      assert SyncMessages(once, conv, batch) == once + KeepNew(batch.value, after);
      assert once + [] == once;
    }
  }

  /** Two records of one batch that would each represent the other (same
      text, close in time) are both kept when nothing stored represents
      either: the batch is checked only against the store as it was before
      the merge, never against itself. */
  lemma SameBatchNotDeduplicated(stored: seq<Record>, conv: Conversation, a: Record, b: Record)
    requires !Duplicate(a, LocalMessages(stored, conv)) && !Duplicate(b, LocalMessages(stored, conv))
    requires Represents(a, b) && Represents(b, a)
    ensures SyncMessages(stored, conv, Some([a, b])) == stored + [a, b]
  {
    var local := LocalMessages(stored, conv);
    KeepEverything([a, b], local);
    assert SyncMessages(stored, conv, Some([a, b])) == stored + KeepNew([a, b], local);
  }

  /** The window is inclusive and exactly 5000 ms wide on each side: an
      archived record with the text of a stored one but another stanza id,
      neither having a delay time stamp, is dropped exactly when the two
      time stamps differ by at most 5000 ms. */
  lemma DedupWindow(conv: Conversation, s: Record, r: Record)
    requires s.conv == conv && r.conv == conv
    requires s.text == r.text && s.stanzaId != r.stanzaId
    requires s.delayTimestamp.None? && r.delayTimestamp.None?
    ensures SyncMessages([s], conv, Some([r])) == [s] <==> -5000 <= r.timestamp - s.timestamp <= 5000
  {
    assert LocalMessages([s], conv) == [s] by {
      assert LocalMessages([s][1..], conv) == [];
    }
    var merged := SyncMessages([s], conv, Some([r]));
    if Duplicate(r, [s]) {
      assert Represents(s, r);
    } else {
      assert r in merged[1..];
    }
  }
}

=== FILE: forward_sync.dfy ===
/** Forward ("catch-up") synchronisation of one chat: the throttle, one
    page towards the present, and the loop over pages with its "old pivot"
    termination rule. */
module ForwardSync {
  import opened MamTypes
  import opened SyncCursor
  import opened Dedup
  import opened ArchiveMapper
  import opened SupportCache

  /** Java's millisecond-to-minute conversion: division truncating towards
      zero (Dafny's own division rounds negative quotients down). */
  function ToMinutes(ms: int): (m: int)
    ensures ms >= 0 ==> m * MillisPerMinute <= ms < (m + 1) * MillisPerMinute
    ensures ms < 0 ==> -m * MillisPerMinute <= -ms < (-m + 1) * MillisPerMinute
  {
    if ms >= 0 then ms / MillisPerMinute else -((-ms) / MillisPerMinute)
  }

  /** The chat was synchronised forward less than the interval ago, counted
      in whole (truncated) minutes. */
  predicate Throttled(chat: Chat, now: int)
  {
    chat.lastSyncedTime.Some? && ToMinutes(now - chat.lastSyncedTime.value) < SyncIntervalMinutes
  }

  /** Because the minute count truncates, the throttle skips exactly while
      less than 300000 ms have passed (and whenever the clock went back). */
  lemma ThrottledExactly(chat: Chat, now: int)
    ensures Throttled(chat, now) <==>
            chat.lastSyncedTime.Some? && now - chat.lastSyncedTime.value < SyncIntervalMinutes * MillisPerMinute
  {
    if chat.lastSyncedTime.Some? {
      var d := now - chat.lastSyncedTime.value;
      var m := ToMinutes(d);
      if d >= 0 {
        if m < SyncIntervalMinutes {
          assert m <= 4;
          assert m * MillisPerMinute <= 4 * MillisPerMinute;
          assert (m + 1) * MillisPerMinute <= 5 * MillisPerMinute;
        } else {
          assert m * MillisPerMinute >= 5 * MillisPerMinute;
        }
      }
    }
  }

  /** The query a pivot leads to: the newest page when there is none, the
      page after it otherwise. */
  function QueryFor(pivot: Option<string>): (q: Query)
    ensures pivot.None? <==> q.Newest?
    ensures pivot.Some? ==> q == After(pivot.value)
  {
    match pivot
    case None => Newest
    case Some(id) => After(id)
  }

  /** A reply that carries a full page; a failed query counts -1, which is
      never a page size. */
  predicate Full(reply: Reply, pageSize: nat)
  {
    CountOf(reply) == pageSize
  }

  /** The pivot stored for `conv`: the cursor's last archive id. */
  function StoredPivot(st: Store, conv: Conversation): Option<string>
  {
    CursorOf(st.cursors, conv).lastMamId
  }

  /** Everything but the chat's conversation keeps its cursor. */
  ghost predicate OtherCursorsKept(before: Store, after: Store, conv: Conversation)
  {
    forall c :: c != conv ==> (c in after.cursors <==> c in before.cursors)
                              && (c in before.cursors ==> after.cursors[c] == before.cursors[c])
  }

  /** Records are only ever appended to the store. */
  predicate Appended(before: Store, after: Store)
  {
    |after.messages| >= |before.messages| && after.messages[..|before.messages|] == before.messages
  }

  /** The outcome of one forward page: the count the loop tests (-1 for a
      failed query), and the store and chat afterwards. */
  datatype PageResult = PageResult(count: int, store: Store, chat: Chat)

  /** One page towards the present. A failed query changes nothing. An
      answered one stamps the chat's synchronisation time, moves the cursor
      and then merges the mapped records; the cursor moves even when the
      mapper discards the page. */
  function RequestLastHistoryPage(st: Store, chat: Chat, reply: Reply, now: int): (r: PageResult)
    ensures r.count == CountOf(reply)
    ensures reply.QueryFailed? ==> r.store == st && r.chat == chat
    ensures reply.Answered? ==> r.chat == chat.(lastSyncedTime := Some(now))
    ensures reply.Answered? ==> chat.conv in r.store.cursors
    ensures reply.Answered? ==>
              r.store.cursors[chat.conv] == UpdateLastHistorySyncInfo(CursorOf(st.cursors, chat.conv), reply.page)
    ensures reply.Answered? ==>
              r.store.messages == SyncMessages(st.messages, chat.conv, GetMessageItems(reply.page.entries, chat.conv))
    ensures OtherCursorsKept(st, r.store, chat.conv)
    ensures Appended(st, r.store)
  {
    match reply
    case QueryFailed => PageResult(-1, st, chat)
    case Answered(page) =>
      var (info, cursors) := GetSyncInfo(st.cursors, chat.conv);
      var moved := cursors[chat.conv := UpdateLastHistorySyncInfo(info, page)];
      var merged := SyncMessages(st.messages, chat.conv, GetMessageItems(page.entries, chat.conv));
      PageResult(|page.entries|, Store(merged, moved), chat.(lastSyncedTime := Some(now)))
  }

  /** A page the mapper discards still moves the cursor, and adds no
      record. */
  lemma DiscardedPageStillMovesCursor(st: Store, chat: Chat, page: Page, now: int)
    requires GetMessageItems(page.entries, chat.conv).None?
    ensures var r := RequestLastHistoryPage(st, chat, Answered(page), now);
            && r.store.messages == st.messages
            && StoredPivot(r.store, chat.conv) == NextLastMamId(StoredPivot(st, chat.conv), page)
  {
  }

  /** Applying the same answered page a second time changes neither the
      cursor nor the stored records. */
  lemma ForwardPageIdempotent(st: Store, chat: Chat, page: Page, now: int)
    ensures var once := RequestLastHistoryPage(st, chat, Answered(page), now);
            var twice := RequestLastHistoryPage(once.store, once.chat, Answered(page), now);
            twice.store == once.store && twice.chat == once.chat
  {
    var conv := chat.conv;
    var items := GetMessageItems(page.entries, conv);
    if items.Some? {
      MappedRecordsBelongToChat(page.entries, conv);
    }
    SyncMessagesIdempotent(st.messages, conv, items);
    UpdateLastIdempotent(CursorOf(st.cursors, conv), page);
    var once := RequestLastHistoryPage(st, chat, Answered(page), now);
    var twice := RequestLastHistoryPage(once.store, once.chat, Answered(page), now);
    assert twice.store.cursors == once.store.cursors;
  }

  /** The stored pivot after one reply: an answered page moves it to the
      page's last id when the page reports one. */
  function NextPivot(pivot: Option<string>, reply: Reply): Option<string>
  {
    match reply
    case QueryFailed => pivot
    case Answered(page) => NextLastMamId(pivot, page)
  }

  /** The stored pivot after a run of replies starting from `pivot0`. */
  function PivotAfter(pivot0: Option<string>, replies: seq<Reply>): Option<string>
    decreases |replies|
  {
    if |replies| == 0 then pivot0
    else NextPivot(PivotAfter(pivot0, replies[..|replies| - 1]), replies[|replies| - 1])
  }

  /** One more reply moves the pivot by one step. */
  lemma PivotAfterStep(pivot0: Option<string>, replies: seq<Reply>, i: nat)
    requires i < |replies|
    ensures PivotAfter(pivot0, replies[..i + 1]) == NextPivot(PivotAfter(pivot0, replies[..i]), replies[i])
  {
    assert replies[..i + 1][..i] == replies[..i];
  }

  /** A pivot, once known, is never forgotten by forward pages. */
  lemma {:induction false} PivotAfterKeepsSome(pivot0: Option<string>, replies: seq<Reply>)
    requires pivot0.Some?
    ensures PivotAfter(pivot0, replies).Some?
    decreases |replies|
  {
    if |replies| > 0 {
      PivotAfterKeepsSome(pivot0, replies[..|replies| - 1]);
    }
  }

  /** The conversation's cursor after one reply: an answered page applies
      the forward update, a failed query leaves it. */
  function NextCursor(info: SyncInfo, reply: Reply): SyncInfo
  {
    match reply
    case QueryFailed => info
    case Answered(page) => UpdateLastHistorySyncInfo(info, page)
  }

  /** The cursor after a run of replies starting from `info0`. */
  function CursorAfter(info0: SyncInfo, replies: seq<Reply>): SyncInfo
    decreases |replies|, 1
  {
    if |replies| == 0 then info0 else CursorThroughLast(info0, replies)
  }

  /** A non-empty run: the cursor after all but the last reply, moved by the
      last one. Kept apart from CursorAfter, as MessagesThroughLast is from
      MessagesAfter. */
  function CursorThroughLast(info0: SyncInfo, replies: seq<Reply>): SyncInfo
    requires |replies| > 0
    decreases |replies|, 0
  {
    NextCursor(CursorAfter(info0, replies[..|replies| - 1]), replies[|replies| - 1])
  }

  /** One more reply moves the cursor by one forward update. */
  lemma CursorAfterStep(info0: SyncInfo, replies: seq<Reply>, i: nat)
    requires i < |replies|
    ensures CursorAfter(info0, replies[..i + 1]) == NextCursor(CursorAfter(info0, replies[..i]), replies[i])
  {
    assert replies[..i + 1][..i] == replies[..i];
  }

  /** The pivot the loop follows is the last archive id of the folded
      cursor: the two reference definitions agree. */
  lemma {:induction false} PivotAfterIsCursorAfter(info0: SyncInfo, replies: seq<Reply>)
    ensures PivotAfter(info0.lastMamId, replies) == CursorAfter(info0, replies).lastMamId
    decreases |replies|
  {
    if |replies| > 0 {
      PivotAfterIsCursorAfter(info0, replies[..|replies| - 1]);
    }
  }

  /** The stored records after one reply: an answered page merges its
      mapped records into `conv`, a failed query adds nothing. */
  function MergeReply(msgs: seq<Record>, conv: Conversation, reply: Reply): seq<Record>
  {
    match reply
    case QueryFailed => msgs
    case Answered(page) => SyncMessages(msgs, conv, GetMessageItems(page.entries, conv))
  }

  /** The stored records after a run of replies, each answered page merged
      in the order the replies arrived. */
  function MessagesAfter(msgs0: seq<Record>, conv: Conversation, replies: seq<Reply>): seq<Record>
    decreases |replies|, 1
  {
    if |replies| == 0 then msgs0 else MessagesThroughLast(msgs0, conv, replies)
  }

  /** A non-empty run: the records after all but the last reply, with the
      last one merged. Kept apart from MessagesAfter so that unfolding the
      fold once does not yet expose the archive mapper. */
  function MessagesThroughLast(msgs0: seq<Record>, conv: Conversation, replies: seq<Reply>): seq<Record>
    requires |replies| > 0
    decreases |replies|, 0
  {
    MergeReply(MessagesAfter(msgs0, conv, replies[..|replies| - 1]), conv, replies[|replies| - 1])
  }

  /** One more reply merges one more page. */
  lemma MessagesAfterStep(msgs0: seq<Record>, conv: Conversation, replies: seq<Reply>, i: nat)
    requires i < |replies|
    ensures MessagesAfter(msgs0, conv, replies[..i + 1]) == MergeReply(MessagesAfter(msgs0, conv, replies[..i]), conv, replies[i])
  {
    assert replies[..i + 1][..i] == replies[..i];
  }

  /** A reply that gives the pivot nothing to move to: a failed query, or
      a page whose result set is missing or reports no last id. */
  predicate ReportsNoLast(reply: Reply)
  {
    reply.QueryFailed? || reply.page.rsm.None? || reply.page.rsm.value.last.None?
  }

  /** While no reply reports a last id the pivot stays where it was, so
      every round re-issues the first round's query. */
  lemma {:induction false} NoLastKeepsPivot(pivot0: Option<string>, replies: seq<Reply>)
    requires forall k :: 0 <= k < |replies| ==> ReportsNoLast(replies[k])
    ensures forall k :: 0 <= k <= |replies| ==> PivotAfter(pivot0, replies[..k]) == pivot0
    decreases |replies|
  {
    if |replies| > 0 {
      var before := replies[..|replies| - 1];
      NoLastKeepsPivot(pivot0, before);
      forall k | 0 <= k <= |replies|
        ensures PivotAfter(pivot0, replies[..k]) == pivot0
      {
        if k < |replies| {
          assert replies[..k] == before[..k];
        } else {
          assert replies[..k] == replies;
          assert before[..|before|] == before;
        }
      }
    }
  }

  /** The queries a run of rounds issues for the replies it got: each
      round asks with the pivot stored after the rounds before it. */
  function QueriesFor(pivot0: Option<string>, replies: seq<Reply>): (qs: seq<Query>)
    ensures |qs| == |replies|
    decreases |replies|
  {
    if |replies| == 0 then []
    else
      var before := replies[..|replies| - 1];
      QueriesFor(pivot0, before) + [QueryFor(PivotAfter(pivot0, before))]
  }

  /** The k-th issued query uses the pivot left by the first k replies. */
  lemma {:induction false} QueriesForIndex(pivot0: Option<string>, replies: seq<Reply>, k: nat)
    requires k < |replies|
    ensures QueriesFor(pivot0, replies)[k] == QueryFor(PivotAfter(pivot0, replies[..k]))
    decreases |replies|
  {
    var before := replies[..|replies| - 1];
    if k < |replies| - 1 {
      QueriesForIndex(pivot0, before, k);
      assert before[..k] == replies[..k];
    }
  }

  /** Some reply among the first `n` was answered. */
  predicate AnyAnswered(replies: seq<Reply>, n: nat)
    requires n <= |replies|
  {
    exists k :: 0 <= k < n && replies[k].Answered?
  }

  /** Keeping the other cursors is transitive. */
  lemma OtherCursorsKeptTrans(a: Store, b: Store, c: Store, conv: Conversation)
    requires OtherCursorsKept(a, b, conv) && OtherCursorsKept(b, c, conv)
    ensures OtherCursorsKept(a, c, conv)
  {
  }

  /** Appending is transitive. */
  lemma AppendedTrans(a: Store, b: Store, c: Store)
    requires Appended(a, b) && Appended(b, c)
    ensures Appended(a, c)
  {
    assert c.messages[..|a.messages|] == c.messages[..|b.messages|][..|a.messages|];
  }

  /** The store after the rounds that got `replies`, from `st0`: the
      conversation's cursor and records are the folds of the replies, the
      other cursors are untouched and records were only appended. */
  ghost predicate StoreAfter(st0: Store, st: Store, conv: Conversation, replies: seq<Reply>)
  {
    && CursorOf(st.cursors, conv) == CursorAfter(CursorOf(st0.cursors, conv), replies)
    && st.messages == MessagesAfter(st0.messages, conv, replies)
    && OtherCursorsKept(st0, st, conv)
    && Appended(st0, st)
  }

  /** A round that applies the next reply keeps the store on the folds. */
  lemma StoreAfterStep(st0: Store, st: Store, next: Store, conv: Conversation, replies: seq<Reply>, i: nat)
    requires i < |replies|
    requires StoreAfter(st0, st, conv, replies[..i])
    requires CursorOf(next.cursors, conv) == NextCursor(CursorOf(st.cursors, conv), replies[i])
    requires next.messages == MergeReply(st.messages, conv, replies[i])
    requires OtherCursorsKept(st, next, conv) && Appended(st, next)
    ensures StoreAfter(st0, next, conv, replies[..i + 1])
  {
    OtherCursorsKeptTrans(st0, st, next, conv);
    AppendedTrans(st0, st, next);
    CursorAfterStep(CursorOf(st0.cursors, conv), replies, i);
    MessagesAfterStep(st0.messages, conv, replies, i);
  }

  /** One round of the forward loop: the pivot is read from the stored
      cursor (which creates the cursor if needed), and the page the archive
      returned for the query built from it is applied: the cursor moves
      first, then the mapped records are merged. */
  method ForwardRound(st: Store, chat: Chat, reply: Reply, now: int) returns (pivot: Option<string>, r: PageResult)
    ensures pivot == StoredPivot(st, chat.conv)
    ensures r.count == CountOf(reply)
    ensures StoredPivot(r.store, chat.conv) == NextPivot(pivot, reply)
    ensures chat.conv in r.store.cursors
    ensures CursorOf(r.store.cursors, chat.conv).remoteComplete == CursorOf(st.cursors, chat.conv).remoteComplete
    // A failed query writes nothing; an answered page merges its records and moves the cursor.
    ensures reply.QueryFailed? ==> r.store.messages == st.messages
    ensures reply.QueryFailed? ==> CursorOf(r.store.cursors, chat.conv) == CursorOf(st.cursors, chat.conv)
    ensures reply.Answered? ==>
              r.store.messages == SyncMessages(st.messages, chat.conv, GetMessageItems(reply.page.entries, chat.conv))
    ensures reply.Answered? ==>
              CursorOf(r.store.cursors, chat.conv) == UpdateLastHistorySyncInfo(CursorOf(st.cursors, chat.conv), reply.page)
    ensures OtherCursorsKept(st, r.store, chat.conv)
    ensures Appended(st, r.store)
    ensures r.chat.conv == chat.conv && r.chat.previousComplete == chat.previousComplete
    ensures r.chat.lastSyncedTime == if reply.Answered? then Some(now) else chat.lastSyncedTime
  {
    var looked := GetSyncInfo(st.cursors, chat.conv);
    pivot := looked.0.lastMamId;
    r := RequestLastHistoryPage(st.(cursors := looked.1), chat, reply, now);
  }

  /** A round as the loop sees it: a store that followed the first `i`
      replies follows the first `i + 1` once the round has applied
      `replies[i]`. */
  method FollowRound(ghost st0: Store, st: Store, chat: Chat, ghost replies: seq<Reply>, ghost i: nat,
                     reply: Reply, now: int)
    returns (pivot: Option<string>, r: PageResult)
    requires i < |replies| && reply == replies[i]
    requires StoreAfter(st0, st, chat.conv, replies[..i])
    ensures StoreAfter(st0, r.store, chat.conv, replies[..i + 1])
    ensures pivot == StoredPivot(st, chat.conv)
    ensures r.count == CountOf(reply)
    ensures StoredPivot(r.store, chat.conv) == NextPivot(pivot, reply)
    ensures chat.conv in r.store.cursors
    ensures CursorOf(r.store.cursors, chat.conv).remoteComplete == CursorOf(st.cursors, chat.conv).remoteComplete
    ensures r.chat.conv == chat.conv && r.chat.previousComplete == chat.previousComplete
    ensures r.chat.lastSyncedTime == if reply.Answered? then Some(now) else chat.lastSyncedTime
  {
    pivot, r := ForwardRound(st, chat, reply, now);
    StoreAfterStep(st0, st, r.store, chat.conv, replies, i);
  }

  /** The rounds of the forward loop, up to the first round whose pivot was
      unknown or whose page was not full, or until the archive oracle has no
      reply left. */
  method ForwardRounds(st0: Store, chat0: Chat, now: int, pageSize: nat, replies: seq<Reply>)
    returns (st: Store, chat: Chat, queries: seq<Query>, pivot: Option<string>, count: int, stop: bool)
    ensures |queries| <= |replies|
    ensures stop ==> |queries| > 0 && !(pivot.Some? && count == pageSize)
    ensures !stop ==> |queries| == |replies|
    ensures |queries| > 0 ==> pivot == PivotAfter(StoredPivot(st0, chat0.conv), replies[..|queries| - 1])
    ensures |queries| > 0 ==> count == CountOf(replies[|queries| - 1])
    ensures queries == QueriesFor(StoredPivot(st0, chat0.conv), replies[..|queries|])
    ensures StoredPivot(st0, chat0.conv).None? && |replies| > 0 ==> |queries| == 1 && stop
    ensures forall k :: 0 <= k < |queries| - 1 ==> Full(replies[k], pageSize)
    ensures StoredPivot(st, chat0.conv) == PivotAfter(StoredPivot(st0, chat0.conv), replies[..|queries|])
    ensures CursorOf(st.cursors, chat0.conv) == CursorAfter(CursorOf(st0.cursors, chat0.conv), replies[..|queries|])
    ensures st.messages == MessagesAfter(st0.messages, chat0.conv, replies[..|queries|])
    ensures CursorOf(st.cursors, chat0.conv).remoteComplete == CursorOf(st0.cursors, chat0.conv).remoteComplete
    ensures |queries| > 0 ==> chat0.conv in st.cursors
    ensures OtherCursorsKept(st0, st, chat0.conv)
    ensures Appended(st0, st)
    ensures chat.conv == chat0.conv && chat.previousComplete == chat0.previousComplete
    ensures chat.lastSyncedTime == if AnyAnswered(replies, |queries|) then Some(now) else chat0.lastSyncedTime
  {
    var conv := chat0.conv;
    ghost var pivot0 := StoredPivot(st0, conv);
    st := st0;
    chat := chat0;
    queries := [];
    pivot := None;
    count := 0;
    stop := false;
    var i := 0;
    while !stop && i < |replies|
      invariant 0 <= i <= |replies| && |queries| == i
      invariant queries == QueriesFor(pivot0, replies[..i])
      invariant StoredPivot(st, conv) == PivotAfter(pivot0, replies[..i])
      invariant StoreAfter(st0, st, conv, replies[..i])
      invariant i > 0 ==> pivot == PivotAfter(pivot0, replies[..i - 1]) && count == CountOf(replies[i - 1])
      invariant i > 0 ==> conv in st.cursors
      invariant stop ==> i > 0 && !(pivot.Some? && count == pageSize)
      invariant !stop && i > 0 ==> pivot.Some? && count == pageSize
      invariant pivot0.None? && i > 0 ==> i == 1 && stop
      invariant forall k :: 0 <= k < i - 1 ==> Full(replies[k], pageSize)
      invariant CursorOf(st.cursors, conv).remoteComplete == CursorOf(st0.cursors, conv).remoteComplete
      invariant chat.conv == conv && chat.previousComplete == chat0.previousComplete
      invariant chat.lastSyncedTime == if AnyAnswered(replies, i) then Some(now) else chat0.lastSyncedTime
      decreases |replies| - i
    {
      // The round that just ended was full, or the loop would have stopped.
      assert forall k :: 0 <= k < i ==> Full(replies[k], pageSize);
      assert AnyAnswered(replies, i + 1) <==> AnyAnswered(replies, i) || replies[i].Answered?;
      PivotAfterStep(pivot0, replies, i);
      assert replies[..i + 1][..i] == replies[..i];
      var result;
      pivot, result := FollowRound(st0, st, chat, replies, i, replies[i], now);
      queries := queries + [QueryFor(pivot)];
      count := result.count;
      st := result.store;
      chat := result.chat;
      i := i + 1;
      stop := !(pivot.Some? && count == pageSize);
    }
  }

  /** How the forward loop ended: after the page whose count it reports, or
      because the archive oracle had no reply left (MamManager would have
      queried again). */
  datatype LoopOutcome = Finished(lastCount: int) | OutOfFuel

  /** The forward loop: on each round the pivot is read afresh from the
      stored cursor, one page is requested with it, and the loop goes on
      only when the pivot was known and the page was full. Afterwards a
      first run (no pivot) that got a partial page marks the remote history
      complete. `replies[k]` is the archive's answer to the k-th query. */
  method RequestLastHistoryLoop(st0: Store, chat0: Chat, now: int, pageSize: nat, replies: seq<Reply>)
    returns (st: Store, chat: Chat, queries: seq<Query>, outcome: LoopOutcome)
    ensures |queries| <= |replies|
    ensures |replies| > 0 ==> |queries| > 0
    // Every query uses the pivot stored when it is issued.
    ensures forall k :: 0 <= k < |queries| ==> queries[k] == QueryFor(PivotAfter(StoredPivot(st0, chat0.conv), replies[..k]))
    ensures StoredPivot(st0, chat0.conv).Some? ==> forall k :: 0 <= k < |queries| ==> queries[k].After?
    // A first run issues exactly one query.
    ensures StoredPivot(st0, chat0.conv).None? && |replies| > 0 ==> |queries| == 1 && outcome.Finished?
    // The loop goes on only after full pages; an error or a partial page stops it.
    ensures forall k :: 0 <= k < |queries| - 1 ==> Full(replies[k], pageSize)
    ensures outcome.Finished? ==>
              && |queries| > 0
              && outcome.lastCount == CountOf(replies[|queries| - 1])
              && !(StoredPivot(st0, chat0.conv).Some? && Full(replies[|queries| - 1], pageSize))
    ensures outcome.OutOfFuel? ==> |queries| == |replies|
    // With a known pivot, a server that only ever sends full pages never lets the loop stop.
    ensures StoredPivot(st0, chat0.conv).Some? && (forall k :: 0 <= k < |replies| ==> Full(replies[k], pageSize)) ==>
              outcome.OutOfFuel?
    // Completion is marked only by a first run that got a partial page.
    ensures CursorOf(st.cursors, chat0.conv).remoteComplete <==>
              || CursorOf(st0.cursors, chat0.conv).remoteComplete
              || (StoredPivot(st0, chat0.conv).None? && |replies| > 0
                  && replies[0].Answered? && |replies[0].page.entries| < pageSize)
    ensures StoredPivot(st, chat0.conv) == PivotAfter(StoredPivot(st0, chat0.conv), replies[..|queries|])
    // Apart from the completion flag, the cursor is the forward updates of the answered pages, in order.
    ensures CursorOf(st.cursors, chat0.conv)
            == CursorAfter(CursorOf(st0.cursors, chat0.conv), replies[..|queries|])
                 .(remoteComplete := CursorOf(st.cursors, chat0.conv).remoteComplete)
    // The records are those the answered pages merged, in order.
    ensures st.messages == MessagesAfter(st0.messages, chat0.conv, replies[..|queries|])
    ensures |replies| > 0 ==> chat0.conv in st.cursors
    ensures OtherCursorsKept(st0, st, chat0.conv)
    ensures Appended(st0, st)
    ensures chat.conv == chat0.conv && chat.previousComplete == chat0.previousComplete
    ensures chat.lastSyncedTime == if AnyAnswered(replies, |queries|) then Some(now) else chat0.lastSyncedTime
  {
    var conv := chat0.conv;
    ghost var pivot0 := StoredPivot(st0, conv);
    var pivot, count, stop;
    st, chat, queries, pivot, count, stop := ForwardRounds(st0, chat0, now, pageSize, replies);
    forall k | 0 <= k < |queries|
      ensures queries[k] == QueryFor(PivotAfter(pivot0, replies[..k]))
    {
      QueriesForIndex(pivot0, replies[..|queries|], k);
      assert replies[..|queries|][..k] == replies[..k];
    }
    if pivot0.Some? {
      forall k | 0 <= k < |queries| ensures queries[k].After? {
        PivotAfterKeepsSome(pivot0, replies[..k]);
      }
      if |queries| > 0 {
        PivotAfterKeepsSome(pivot0, replies[..|queries| - 1]);
      }
    } else if |queries| > 0 {
      assert replies[..0] == [];
    }
    if stop {
      if pivot.None? && 0 <= count < pageSize {
        st := st.(cursors := SetRemoteHistoryCompletelyLoaded(st.cursors, conv));
      }
      outcome := Finished(count);
    } else {
      outcome := OutOfFuel;
    }
  }

  /** Why a forward synchronisation did or did not run. */
  datatype Gate = Proceed | SkippedThrottled | SkippedOffline | SkippedNotAuthenticated | SkippedUnsupported

  /** Forward synchronisation of one chat with its gates: the throttle, the
      account being online, the connection being authenticated, and the
      archive being supported (which may consult and fill the cache). */
  method RequestLastHistory(st0: Store, chat0: Chat, cache0: Cache, now: int, online: bool, authenticated: bool,
                            probe: Probe, pageSize: nat, replies: seq<Reply>)
    returns (st: Store, chat: Chat, cache: Cache, queries: seq<Query>, gate: Gate)
    ensures Throttled(chat0, now) ==> gate == SkippedThrottled && cache == cache0
    ensures gate == Proceed <==>
              && !Throttled(chat0, now) && online && authenticated
              && CheckSupport(cache0, chat0.conv.account, probe).supported
    ensures cache == if !Throttled(chat0, now) && online && authenticated
                     then CheckSupport(cache0, chat0.conv.account, probe).cache else cache0
    ensures gate != Proceed ==> queries == [] && st == st0 && chat == chat0
    ensures gate == Proceed && |replies| > 0 ==> |queries| > 0 && queries[0] == QueryFor(StoredPivot(st0, chat0.conv))
    ensures gate == Proceed && StoredPivot(st0, chat0.conv).None? && |replies| > 0 ==> |queries| == 1
    // Past the gates, the loop's behaviour carries through.
    ensures |queries| <= |replies|
    ensures gate == Proceed ==>
              forall k :: 0 <= k < |queries| ==> queries[k] == QueryFor(PivotAfter(StoredPivot(st0, chat0.conv), replies[..k]))
    ensures gate == Proceed ==> forall k :: 0 <= k < |queries| - 1 ==> Full(replies[k], pageSize)
    ensures gate == Proceed && |queries| < |replies| ==>
              |queries| > 0 && !(StoredPivot(st0, chat0.conv).Some? && Full(replies[|queries| - 1], pageSize))
    ensures gate == Proceed ==>
              (CursorOf(st.cursors, chat0.conv).remoteComplete <==>
                 || CursorOf(st0.cursors, chat0.conv).remoteComplete
                 || (StoredPivot(st0, chat0.conv).None? && |replies| > 0
                     && replies[0].Answered? && |replies[0].page.entries| < pageSize))
    ensures gate == Proceed ==>
              CursorOf(st.cursors, chat0.conv)
              == CursorAfter(CursorOf(st0.cursors, chat0.conv), replies[..|queries|])
                   .(remoteComplete := CursorOf(st.cursors, chat0.conv).remoteComplete)
    ensures gate == Proceed ==> st.messages == MessagesAfter(st0.messages, chat0.conv, replies[..|queries|])
    ensures CursorOf(st0.cursors, chat0.conv).remoteComplete ==> CursorOf(st.cursors, chat0.conv).remoteComplete
    ensures Appended(st0, st)
  {
    st, chat, cache, queries := st0, chat0, cache0, [];
    if Throttled(chat0, now) {
      gate := SkippedThrottled;
      return;
    }
    if !online {
      gate := SkippedOffline;
      return;
    }
    if !authenticated {
      gate := SkippedNotAuthenticated;
      return;
    }
    var checked := CheckSupport(cache0, chat0.conv.account, probe);
    cache := checked.cache;
    if !checked.supported {
      gate := SkippedUnsupported;
      return;
    }
    gate := Proceed;
    var outcome;
    st, chat, queries, outcome := RequestLastHistoryLoop(st0, chat0, now, pageSize, replies);
    assert replies[..0] == [];
  }
}

=== FILE: support_cache.dfy ===
/** The per-account cache of whether the server supports the message
    archive: looked up first, filled only by a successful probe, and
    dropped when the account authorises again. */
module SupportCache {
  import opened MamTypes

  type Cache = map<string, bool>

  /** What asking the server yields: an answer, or a failure of the
      capability query or, for a positive answer, of the follow-up calls
      that set the archiving preferences. */
  datatype Probe = ProbeFailed | ProbeAnswer(supported: bool)

  /** The outcome of a support check: the verdict and the cache after it. */
  datatype Checked = Checked(supported: bool, cache: Cache)

  /** Ask the server; a failed probe answers "unsupported" and caches
      nothing, an answer is cached for the account. */
  function UpdateIsSupported(cache: Cache, account: string, probe: Probe): (r: Checked)
    ensures probe.ProbeFailed? ==> !r.supported && r.cache == cache
    ensures probe.ProbeAnswer? ==> account in r.cache && r.cache[account] == r.supported == probe.supported
    ensures forall a :: a != account ==> (a in r.cache <==> a in cache)
    ensures forall a :: a != account && a in cache ==> r.cache[a] == cache[a]
  {
    match probe
    case ProbeFailed => Checked(false, cache)
    case ProbeAnswer(b) => Checked(b, cache[account := b])
  }

  /** Lookup-or-compute: a cached verdict is returned without asking the
      server; otherwise the server is asked. */
  function CheckSupport(cache: Cache, account: string, probe: Probe): (r: Checked)
    ensures account in cache ==> r.supported == cache[account] && r.cache == cache
    ensures account !in cache && probe.ProbeFailed? ==> !r.supported && r.cache == cache
    ensures account !in cache && probe.ProbeAnswer? ==>
              r.supported == probe.supported && r.cache == cache[account := probe.supported]
    // A positive verdict is always backed by the cache afterwards.
    ensures r.supported ==> account in r.cache && r.cache[account]
  {
    if account in cache then Checked(cache[account], cache)
    else UpdateIsSupported(cache, account, probe)
  }

  /** On authorisation the account's cached verdict is dropped and the
      server is asked afresh. */
  function OnAuthorized(cache: Cache, account: string, probe: Probe): (r: Checked)
    ensures probe.ProbeFailed? ==> account !in r.cache
    ensures probe.ProbeAnswer? ==> account in r.cache && r.cache[account] == probe.supported
    ensures forall a :: a != account ==> (a in r.cache <==> a in cache)
    ensures forall a :: a != account && a in cache ==> r.cache[a] == cache[a]
  {
    UpdateIsSupported(cache - {account}, account, probe)
  }

  /** Once a verdict is cached (already, or by the first check's answer),
      further checks return it whatever the server would now say, and do
      not change the cache. */
  lemma CachedVerdictIsStable(cache: Cache, account: string, p1: Probe, p2: Probe)
    requires account in cache || p1.ProbeAnswer?
    ensures var first := CheckSupport(cache, account, p1);
            CheckSupport(first.cache, account, p2) == first
  {
  }
}

=== FILE: sync_cursor.dfy ===
/** The per-conversation synchronisation cursor: lazy creation, the update
    after a forward page, the update after a backward page, and the
    explicit completion mark. */
module SyncCursor {
  import opened MamTypes

  type Cursors = map<Conversation, SyncInfo>

  /** The cursor of `conv`: the stored one, or the empty cursor a lookup
      would create. */
  function CursorOf(cursors: Cursors, conv: Conversation): SyncInfo
  {
    if conv in cursors then cursors[conv] else EmptySyncInfo
  }

  /** Get-or-create: the cursor of `conv` and the cursor table after the
      lookup, which has gained an empty cursor if `conv` had none. */
  function GetSyncInfo(cursors: Cursors, conv: Conversation): (r: (SyncInfo, Cursors))
    ensures conv in r.1 && r.1[conv] == r.0 == CursorOf(cursors, conv)
    ensures r.1.Keys == cursors.Keys + {conv}
    ensures forall c :: c in cursors ==> r.1[c] == cursors[c]
    ensures conv !in cursors ==> r.0 == EmptySyncInfo
  {
    if conv in cursors then (cursors[conv], cursors)
    else (EmptySyncInfo, cursors[conv := EmptySyncInfo])
  }

  /** Looking a cursor up a second time returns the same cursor and
      creates nothing more. */
  lemma GetSyncInfoIdempotent(cursors: Cursors, conv: Conversation)
    ensures GetSyncInfo(GetSyncInfo(cursors, conv).1, conv) == (GetSyncInfo(cursors, conv).0, GetSyncInfo(cursors, conv).1)
  {
  }

  /** The last archive id the forward update leaves, given the previous one:
      replaced by the page's result-set last id when there is one. */
  function NextLastMamId(last: Option<string>, page: Page): Option<string>
  {
    if page.rsm.Some? && page.rsm.value.last.Some? then page.rsm.value.last else last
  }

  /** Forward update of a cursor after a page towards the present. */
  function UpdateLastHistorySyncInfo(info: SyncInfo, page: Page): (r: SyncInfo)
    // A page without a result set changes nothing.
    ensures page.rsm.None? ==> r == info
    // The oldest boundary is set once, when it was still unknown.
    ensures info.firstMamId.Some? ==> r.firstMamId == info.firstMamId && r.firstStanzaId == info.firstStanzaId
    ensures info.firstMamId.None? && page.rsm.Some? ==> r.firstMamId == page.rsm.value.first
    ensures info.firstMamId.None? && page.rsm.Some? && |page.entries| > 0 ==> r.firstStanzaId == FirstStanzaIdOf(page)
    ensures |page.entries| == 0 ==> r.firstStanzaId == info.firstStanzaId
    // The newest boundary moves only to a reported last id.
    ensures r.lastMamId != info.lastMamId ==> page.rsm.Some? && r.lastMamId == page.rsm.value.last
    ensures page.rsm.Some? && page.rsm.value.last.Some? ==> r.lastMamId == page.rsm.value.last
    ensures info.lastMamId.Some? ==> r.lastMamId.Some?
    // The completion flag is never touched.
    ensures r.remoteComplete == info.remoteComplete
  {
    match page.rsm
    case None => info
    case Some(rsm) =>
      var withFirst :=
        if info.firstMamId.None? then
          info.(firstMamId := rsm.first,
                firstStanzaId := if |page.entries| > 0 then FirstStanzaIdOf(page) else info.firstStanzaId)
        else info;
      withFirst.(lastMamId := NextLastMamId(info.lastMamId, page))
  }

  /** Applying the same forward page twice leaves the cursor as applying it
      once does. */
  lemma UpdateLastIdempotent(info: SyncInfo, page: Page)
    ensures UpdateLastHistorySyncInfo(UpdateLastHistorySyncInfo(info, page), page) == UpdateLastHistorySyncInfo(info, page)
  {
  }

  /** Backward update of a cursor after a page into the past. MamManager
      reads the page's result set without a null check, so a page without
      one never reaches this update. */
  function UpdatePreviousHistorySyncInfo(info: SyncInfo, page: Page, pageSize: nat): (r: SyncInfo)
    requires page.rsm.Some?
    // A short page marks the remote history complete; nothing unmarks it.
    ensures r.remoteComplete <==> info.remoteComplete || |page.entries| < pageSize
    // The oldest boundary always moves to the page's first id, even a null one.
    ensures r.firstMamId == page.rsm.value.first
    ensures |page.entries| > 0 ==> r.firstStanzaId == FirstStanzaIdOf(page)
    ensures |page.entries| == 0 ==> r.firstStanzaId == info.firstStanzaId
    // The newest boundary belongs to the forward direction.
    ensures r.lastMamId == info.lastMamId
  {
    var marked := if |page.entries| < pageSize then info.(remoteComplete := true) else info;
    var moved := marked.(firstMamId := page.rsm.value.first);
    if |page.entries| > 0 then moved.(firstStanzaId := FirstStanzaIdOf(page)) else moved
  }

  /** Applying the same backward page twice leaves the cursor as applying
      it once does. */
  lemma UpdatePreviousIdempotent(info: SyncInfo, page: Page, pageSize: nat)
    requires page.rsm.Some?
    ensures UpdatePreviousHistorySyncInfo(UpdatePreviousHistorySyncInfo(info, page, pageSize), page, pageSize)
            == UpdatePreviousHistorySyncInfo(info, page, pageSize)
  {
  }

  /** The explicit completion mark: the cursor of `conv` (created if
      needed) gets its completion flag set; nothing else changes. */
  function SetRemoteHistoryCompletelyLoaded(cursors: Cursors, conv: Conversation): (r: Cursors)
    ensures conv in r && r[conv].remoteComplete
    ensures r[conv] == CursorOf(cursors, conv).(remoteComplete := true)
    ensures r.Keys == cursors.Keys + {conv}
    ensures forall c :: c in cursors && c != conv ==> r[c] == cursors[c]
  {
    var (info, created) := GetSyncInfo(cursors, conv);
    created[conv := info.(remoteComplete := true)]
  }
}

=== FILE: types.dfy ===
/** Data model of the message-archive synchronisation of one client:
    addresses, conversations, stored message records, the per-conversation
    synchronisation cursor, archived entries and the pages and replies the
    archive server returns. */
module MamTypes {

  /** A nullable Java value: `None` stands for Java's `null`. */
  datatype Option<+T> = None | Some(value: T)

  /** Half-width of the time window, in milliseconds, inside which two
      records with the same text are taken to be the same message. */
  const SimilarityWindowMs: int := 1000 * 5

  /** Minimum number of whole minutes between two forward synchronisations
      of one chat. */
  const SyncIntervalMinutes: int := 5

  /** Milliseconds in one minute, as used by the millisecond-to-minute
      conversion of the throttle. */
  const MillisPerMinute: int := 60 * 1000

  /** An address: the bare part (`user@host`) and an optional resource.
      Bare-address comparison is equality on `bare`. */
  datatype Jid = Jid(bare: string, resource: Option<string>)

  /** The key of one conversation: the local account and the peer. */
  datatype Conversation = Conversation(account: string, user: Jid)

  /** One stored message record. `text` and `stanzaId` may be null, and the
      store's equality lookups match null against null. */
  datatype Record = Record(
    conv: Conversation,
    resource: Option<string>,
    text: Option<string>,
    timestamp: int,
    delayTimestamp: Option<int>,
    incoming: bool,
    stanzaId: Option<string>,
    fromArchive: bool,
    read: bool,
    sent: bool)

  /** The persisted synchronisation cursor of one conversation. */
  datatype SyncInfo = SyncInfo(
    firstMamId: Option<string>,
    firstStanzaId: Option<string>,
    lastMamId: Option<string>,
    remoteComplete: bool)

  /** The cursor a conversation gets when it is first looked up. */
  const EmptySyncInfo: SyncInfo := SyncInfo(None, None, None, false)

  /** Result of handing a message body to the legacy inline-encryption
      decoder: no envelope found (`null`), a plaintext envelope with its
      clean text, a non-plaintext (control) envelope, or a decoding error. */
  datatype OtrDecode = NotOtr | OtrPlaintext(cleanText: Option<string>) | OtrControl | OtrDecodeError

  /** The stanza carried by one archived entry. Only message stanzas become
      records; `otr` is what the decoder makes of `body`. */
  datatype Stanza =
    | MessageStanza(from: Jid, stanzaId: Option<string>, body: Option<string>,
                    innerDelay: Option<int>, otr: OtrDecode)
    | OtherStanza(stanzaId: Option<string>)

  /** One archived entry: the forwarded stanza and the time stamp of the
      archive's forwarding envelope. */
  datatype Entry = Entry(stanza: Stanza, outerDelay: int)

  /** The result-set boundaries the server reports for a page; either may
      be absent. */
  datatype Rsm = Rsm(first: Option<string>, last: Option<string>)

  /** One page of the archive: its entries in archive order and the
      result-set element, which may be missing altogether. */
  datatype Page = Page(entries: seq<Entry>, rsm: Option<Rsm>)

  /** What the archive answers to one query. */
  datatype Reply = QueryFailed | Answered(page: Page)

  /** The queries the synchroniser issues: the newest page (a page before
      the empty id), the page after an id, or the page before an id. */
  datatype Query = Newest | After(afterId: string) | Before(beforeId: string)

  /** The chat as far as synchronisation is concerned: its conversation,
      when it was last synchronised forward, and whether the chat already
      knows that no older history is left on the server. */
  datatype Chat = Chat(conv: Conversation, lastSyncedTime: Option<int>, previousComplete: bool)

  /** The local store: every message record, and one cursor per conversation
      that has been looked up. */
  datatype Store = Store(messages: seq<Record>, cursors: map<Conversation, SyncInfo>)

  /** The number of entries a reply reports to the forward loop: the
      number of entries on the page, or -1 for a failed query. */
  function CountOf(reply: Reply): int
  {
    match reply
    case QueryFailed => -1
    case Answered(page) => |page.entries|
  }

  /** The stanza id of the first entry of a page, if the page has entries. */
  function FirstStanzaIdOf(page: Page): Option<string>
    requires |page.entries| > 0
  {
    page.entries[0].stanza.stanzaId
  }

  /** `a` is `b` with some elements left out, the rest in their order. */
  predicate IsSubsequence<T(==)>(a: seq<T>, b: seq<T>)
    decreases |b|
  {
    if |a| == 0 then true
    else if |b| == 0 then false
    else if a[0] == b[0] then IsSubsequence(a[1..], b[1..])
    else IsSubsequence(a, b[1..])
  }

  /** A subsequence of the tail is a subsequence of the whole. */
  lemma {:induction false} SubsequenceSkip<T>(a: seq<T>, b: seq<T>)
    requires |b| > 0
    requires IsSubsequence(a, b[1..])
    ensures IsSubsequence(a, b)
    decreases |b|, 0
  {
    if |a| == 0 {
    } else if a[0] == b[0] {
      // The tail of `a` is a subsequence of `b[1..]`, as `a` is.
      SubsequenceTail(a, b[1..]);
    } else {
    }
  }

  /** Dropping the head of a non-empty subsequence keeps it a subsequence. */
  lemma {:induction false} SubsequenceTail<T>(a: seq<T>, b: seq<T>)
    requires |a| > 0
    requires IsSubsequence(a, b)
    ensures IsSubsequence(a[1..], b)
    decreases |b|, 1
  {
    assert |b| > 0;
    if a[0] == b[0] {
      SubsequenceSkip(a[1..], b);
    } else {
      SubsequenceTail(a, b[1..]);
      SubsequenceSkip(a[1..], b);
    }
  }
}
